=== FILE: README.md ===
# Event.hub authentication, actions and event selection — a Dafny model

Event.hub is a Next.js application where users register, log in, submit
technology events and browse them. This project models the sequential core
under its pages:

- the **access gate** (`middleware.ts`): the decision to let a request through
  or to send it to `/login?redirect=<path>`;
- the **token service and session resolver** (`lib/auth.ts`): password hashing,
  HS256 session tokens with a seven-day expiry, `getSession` and `requireAuth`;
- the **server actions** (`lib/actions.ts`): register, login, logout, submit
  event, the three event queries, profile update and password update, each as
  a function from the request and the store to a reply;
- the **home page selection** (`app/page.tsx`): sort by date, keep upcoming
  events, choose the featured event, list up to six others;
- the **dashboard** (`app/dashboard/page.tsx`): its login redirect and the
  upcoming/past split behind its counters.

Everything is a pure function over immutable datatypes. The store is a pair of
sequences (users, events) with auto-increment counters. The clock, the signing
secret, the bcrypt salt and the date parser are parameters. bcrypt and the JWT
signature are ideal primitives:
- a digest records (cost, salt, password), so only its own password verifies
  and a malformed digest never does;
- a signature records (secret, algorithm, claims), so a token verifies exactly
  when the same secret signed exactly its claims and it has not expired.

Files: `wrappers.dfy` (Option), `seqs.dfy` (order-preserving filter,
subsequences), `auth.dfy`, `store.dfy`, `session.dfy`, `middleware.dfy`,
`timeline.dfy` (date order, upcoming/past), `pages.dfy` (login target,
dashboard, home page), `actions.dfy`, `scenarios.dfy` (properties that span
several actions).

Behaviour of the code worth knowing (the model follows the code):
- The event type is stored as whatever string the form sends, not checked
  against the hackathon / tech-talk / workshop list.
- A wrong current password on password change has its own message ("Current
  password is incorrect"), not the generic invalid-credentials message.
- The sign-up page always goes to `/dashboard` after registering; only the
  login page honours the `redirect` parameter.
- The prefix test marks "/submitted" as protected, but the middleware's
  `matcher` never routes that path to the gate, so the deployed gate lets it
  through (`Middleware.SubmittedBypassesMatcher`).
- `updateUserProfile` does not check that the new email is free. Nothing in
  the action stops two users from sharing an email
  (`Actions.UpdateProfileCanDuplicateEmail`). The model leaves out the
  database's unique index, which would raise a raw constraint error here.

## Model

| member | source | states |
|---|---|---|
| Auth.HashPassword | lib/auth.ts:9-11 | the digest uses work factor 10; the hashed password verifies against it and no other password does |
| Auth.SaltedDigestsDiffer | lib/auth.ts:9-15 | two hashes of one password with different salts differ, yet both verify |
| Auth.MalformedDigestRejects | lib/auth.ts:13-15 | a malformed stored digest fails closed: no password verifies against it |
| Auth.VerifyToken | lib/auth.ts:25-32 | returns the payload exactly when the token parses, its signature is the secret's signature of its claims and it is not expired; every other case is `None`, never an error |
| Auth.CreateToken | lib/auth.ts:17-23 | an HS256 token whose claims are (userId, now, now + 604800) and which verifies under the same secret exactly at instants before now + 7 days |
| Auth.TokenRoundTrip | lib/auth.ts:17-32 | a created token verifies before expiry and yields the user id it was created for |
| Auth.TokenExpires | lib/auth.ts:17-32 | at or after issued-at + 7 days the token fails verification |
| Auth.ForeignSecretRejected | lib/auth.ts:17-32 | a token signed with one secret never verifies under another |
| Auth.TamperedClaimsRejected | lib/auth.ts:17-32 | changing the claims while keeping the signature makes verification fail |
| Store.Project | lib/auth.ts:43-51 | the session projection keeps id, first name, last name and email of the record and has no password field |
| Store.FindStoredUserById | lib/actions.ts:257-259 | with unique ids, looking up a stored user's id returns that user |
| Store.FindStoredUserByEmail | lib/actions.ts:28-30 | with unique emails, looking up a stored user's email returns that user |
| Store.CreateUser | lib/actions.ts:40-47 | appends exactly one user under the next id, leaves the events alone and keeps the store's identity invariants |
| Store.UpdateUser | lib/actions.ts:276-281 | changes the user with the given id and no other record |
| Store.CreateEvent | lib/actions.ts:129-142 | appends exactly one event and keeps the identity invariants when its owner exists |
| Store.EventsOf | lib/actions.ts:191-198 | holds exactly the events whose owner is the given user, each as often as the store holds it, in store order |
| Session.GetSession | lib/auth.ts:34-54 | no session without a token cookie; a session exactly when the cookie is present, the token verifies and the user exists; the result is that user's password-free projection with the token's user id |
| Session.RequireAuth | lib/auth.ts:56-60 | yields the session user when there is one, else a redirect to "/login" |
| Session.DeletedUserHasNoSession | lib/auth.ts:43-53 | a valid token for a user with no record resolves to no session |
| Session.FreshTokenResolves | lib/auth.ts:34-54 | a token issued for a stored user resolves, before expiry, to that user's projection |
| Middleware.ProtectedIff | middleware.ts:9-13 | a path is protected iff it starts with "/dashboard", "/profile" or "/submit" |
| Middleware.Gate | middleware.ts:5-35 | redirects exactly the protected requests with no token or a token that fails verification, carrying the request path as the redirect parameter; all other requests pass |
| Middleware.NoTokenRedirects | middleware.ts:15-20 | a protected path without a token is redirected to login with its own path |
| Middleware.InvalidTokenLikeNoToken | middleware.ts:22-31 | a protected path whose token fails verification gets the same redirect as with no token |
| Middleware.PassCases | middleware.ts:22-34 | a verifying token passes; an unprotected path passes whether the token is absent, valid or invalid |
| Middleware.GateDeterministic | middleware.ts:5-34 | two requests agreeing on path, token presence and verification outcome get the same decision, whatever secret, clock or token |
| Middleware.GateExamples | middleware.ts:9-34 | "/submit" without cookie redirects to "/submit"; "/dashboard" with a fresh token passes; "/profile" with an expired token redirects; "/submitted" counts as protected; "/explore" passes |
| Middleware.Route | middleware.ts:37-39 | unmatched paths pass without reaching the gate; on matched paths the gate redirects exactly for a missing or failing token |
| Middleware.MatchedIsProtected | middleware.ts:37-39 | every path the matcher selects passes the prefix test |
| Middleware.SubmittedBypassesMatcher | middleware.ts:13-39 | "/submitted" is protected by the prefix test but outside the matcher, so it passes without a token |
| LoginPage.RedirectTarget | app/login/page.tsx:23 | the target is the `redirect` parameter when non-empty, else "/dashboard" |
| LoginPage.GateRedirectRoundTrip | app/login/page.tsx:23-40 | after login the user returns to exactly the path the gate redirected away from |
| DashboardPage.Guard | app/dashboard/page.tsx:23-27 | navigates to login exactly when loading is over and there is no user, with the redirect parameter exactly "/dashboard", so that login sends the user back there |
| DashboardPage.Stats | app/dashboard/page.tsx:68-137 | Total is the number of events, Upcoming and Past count the two filters, and Upcoming + Past = Total |
| DashboardPage.PartitionOfEvents | app/dashboard/page.tsx:67-70 | upcoming holds exactly the events with date >= now, past exactly those with date < now; they are disjoint, together hold every event, and each keeps the events' order |
| Timeline.SortByDate | app/page.tsx:17-19 | the result is a permutation of the events in nondecreasing date order, and stable: for every date, the events on that date keep their given order |
| Timeline.InsertOnDate | app/page.tsx:17-19 | inserting an event into a sorted list puts it ahead of the events on its own date and keeps every date's events in order |
| Timeline.FirstUpcomingLeadsItsDate | app/page.tsx:23-26 | the first upcoming event of a list is also the first event of the list on its own date |
| Timeline.Upcoming | app/page.tsx:22-23 | holds exactly the given events dated at or after now |
| Timeline.Past | app/dashboard/page.tsx:70 | holds exactly the given events dated before now |
| Timeline.UpcomingPastPartition | app/dashboard/page.tsx:69-70 | no event is both upcoming and past; their sizes add up to the total; their multisets add up to the events |
| Timeline.UpcomingPastKeepOrder | app/dashboard/page.tsx:69-70 | both filters keep the relative order of the events |
| HomePage.FirstUpcomingIsEarliest | app/page.tsx:17-26 | the sorted upcoming list is non-empty iff some event is upcoming, and its head is an upcoming event no later than any other upcoming event |
| HomePage.EarliestTieGoesToFirstListed | app/page.tsx:17-26 | when some event is upcoming, the head of the sorted upcoming list exists and sits at an index of `events` before which every upcoming event is strictly later |
| HomePage.Featured | app/page.tsx:17-26 | none iff there are no events; if any event is upcoming, the earliest upcoming event, and among those on that date the one listed first in `events`; else the first event |
| HomePage.WithoutId | app/page.tsx:29 | holds exactly the events whose id differs from the given id, each as often as the events hold it, in their order |
| HomePage.Others | app/page.tsx:28-29 | a prefix of the events without the featured id, of length min(6, n) for n such events, so exactly the first six of them (all when n <= 6); a subsequence of the events; empty without a featured event |
| HomePage.Home | app/page.tsx:13-29 | the page's selection: sorted permutation, sorted upcoming list, featured = head of upcoming when there is one, else the first event; other events are the first min(6, n) of the n events without the featured id, and none without a featured event |
| Actions.SessionCookie | lib/actions.ts:49-59 | the cookie is named "token", HTTP-only, path "/", secure in production, max-age 604800 = the token lifetime, and its token verifies exactly while the cookie lives |
| Actions.NextCookie | lib/actions.ts:52-59 | after a set the browser sends the new token; after a delete it sends no token |
| Actions.Register | lib/actions.ts:11-62 | missing fields fail with "All fields are required"; a mismatch fails with "Passwords do not match" whatever the store holds; a taken email fails; success iff none of these, adding exactly one user with the hashed password and setting a session cookie for it, with no revalidation or redirect; failures change nothing, revalidate nothing and do not redirect; the invariants are kept |
| Actions.Login | lib/actions.ts:65-97 | never writes; fails with "Email and password are required" exactly when a field is missing; with both fields present every failure is "Invalid email or password", and it succeeds iff the email's lookup finds a user whose password verifies; success sets a session cookie for that user; it never revalidates or redirects |
| Actions.LoginSucceedsIff | lib/actions.ts:74-82 | with unique emails, login succeeds iff both fields are present and some user has that email and that password |
| Actions.LoginErrorsIndistinguishable | lib/actions.ts:79-82 | a wrong password and an unknown email give the same "Invalid email or password" |
| Actions.Logout | lib/actions.ts:100-103 | always succeeds: deletes the token cookie, redirects to "/", revalidates nothing and writes nothing |
| Actions.LogoutEndsSession | lib/actions.ts:100-103 | after logout no session resolves |
| Actions.OptionalField | lib/actions.ts:117-121 | an empty optional field becomes null, any other value is kept |
| Actions.SubmitEvent | lib/actions.ts:106-149 | without a session it fails and creates nothing; missing required fields fail; failures change nothing, revalidate nothing and do not redirect; success iff session and fields, appending exactly one event with the next id, the session user as owner, the form's fields, empty optional fields as null, revalidating "/" and "/explore", leaving the cookie alone and not redirecting |
| Actions.GetEvents | lib/actions.ts:152-164 | all events, as a permutation in nondecreasing date order |
| Actions.GetEventById | lib/actions.ts:167-181 | none iff no event has that id; otherwise that event, with the names of the user its owner id finds whenever that lookup succeeds, which it always does in a well-formed store |
| Actions.GetUserEvents | lib/actions.ts:184-201 | empty without a session; otherwise exactly the session user's events, in nondecreasing date order |
| Actions.UpdateProfile | lib/actions.ts:204-233 | without a session fails with "You must be logged in to update your profile"; with a session and a missing field fails with "All fields are required"; failures change nothing, revalidate nothing and do not redirect; on success only the session user's names and email change, to the form's values, "/profile" is revalidated, and the cookie and navigation are left alone |
| Actions.RenameUser | lib/actions.ts:220-228 | the names and email of the user with the given id become the form's; ids, passwords and every other record stay; the invariants are kept |
| Actions.UpdateProfileCanDuplicateEmail | lib/actions.ts:220-228 | a successful profile update can give a user another user's email |
| Actions.ChangePassword | lib/actions.ts:243-283 | the checks in the source's order with their messages: a missing field gives "All fields are required", then a mismatch "New passwords do not match", then a missing user "User not found", then a wrong current password "Current password is incorrect"; succeeds iff none applies, and then only that user's password changes, to the hash of the new one, with the cookie untouched and no revalidation or redirect; failures change nothing, revalidate nothing and do not redirect |
| Actions.UpdatePassword | lib/actions.ts:236-284 | without a session fails with "You must be logged in to update your password"; then "All fields are required", "New passwords do not match" and "Current password is incorrect" in that order; "User not found" never occurs, since a session always names a stored user; on success only the session user's password changes, to the hash of the new one, and the cookie, revalidation and navigation are untouched; failures change nothing, revalidate nothing and do not redirect; the invariants are kept |
| Scenarios.RegisterThenSession | lib/actions.ts:37-59 | the cookie set by registration resolves, until it expires, to the new user's public profile |
| Scenarios.RegisterThenLogin | lib/actions.ts:37-47 | after registering, login with the same email and password succeeds, in any store, including one whose emails are not unique |
| Scenarios.PasswordChangeThenLogin | lib/actions.ts:273-281 | after a password change the new password logs in and a different old one fails |
| Scenarios.SessionSurvivesPasswordChange | lib/actions.ts:273-281 | after a password change the cookie the browser sends next resolves to the same user: the session is not ended and tokens are not revoked |
| Scenarios.RegisterThenSubmit | lib/actions.ts:128-142 | after registering, submitting an event with the new session succeeds, the event belongs to the new user, and both `getEvents` and `getUserEvents` list it |

## Left out

- Rendering, JSX, styling, React hooks, toasts and `router.push`: the pages are modelled only for the values they compute and where they navigate.
- The client session fetch in components/auth-provider.tsx: network I/O against an endpoint that is not part of this model; `Guard` takes its result (`loading`, `user`) as parameters.
- `cookies()`, `redirect` and `revalidatePath`: modelled as fields of the action's reply, not as calls.
- The ORM: the store is two in-memory sequences. Database errors, transactions and the unique index on email are not modelled.
- bcrypt and jose internals: ideal primitives stand in for them. bcrypt's 72-byte password truncation and jose's header and algorithm checks are not modelled.
- The development-key fallback for the signing secret (lib/auth.ts:7): the secret is a parameter.
- `typeof payload !== "object"` in `getSession`: a verified payload is always an object here, and tokens carry a `userId` claim by construction.
- Date parsing (`new Date(...)`, `formatDate`): dates are integers and the event form's date string goes through a caller-supplied `parseDate`. An invalid date is not modelled.
- `Number.parseInt` in `getEventById`: the id is an integer parameter.
- Timing: the token clock counts seconds and the pages' `now` is a separate integer; the browser dropping the cookie after max-age is not modelled, but `Actions.SessionCookie` states that the token expires at the same instant.
- lib/data.ts (static mock data) and lib/types.ts (type declarations, folded into the datatypes).

=== FILE: actions.dfy ===
/** The server actions (lib/actions.ts). Each action is a function from the
    request and the store to a reply: a status, the resulting store, the
    cookie effect and the pages to revalidate. Every action runs its guard
    checks in the source's order; a failed guard leaves the store and the
    cookies untouched.

    Form fields are strings. A field missing from the form (`null`) and an
    empty one are both falsy in the source, so both are the empty string here. */
module Actions {
  import opened Wrappers
  import opened Auth
  import opened Store
  import opened Session
  import opened Timeline

  const MsgAllFieldsRequired: string := "All fields are required"
  const MsgPasswordsDoNotMatch: string := "Passwords do not match"
  const MsgUserExists: string := "User with this email already exists"
  const MsgLoginFieldsRequired: string := "Email and password are required"
  const MsgInvalidCredentials: string := "Invalid email or password"
  const MsgSubmitNeedsLogin: string := "You must be logged in to submit an event"
  const MsgRequiredFieldsMissing: string := "Required fields are missing"
  const MsgProfileNeedsLogin: string := "You must be logged in to update your profile"
  const MsgPasswordNeedsLogin: string := "You must be logged in to update your password"
  const MsgNewPasswordsDoNotMatch: string := "New passwords do not match"
  const MsgUserNotFound: string := "User not found"
  const MsgWrongCurrentPassword: string := "Current password is incorrect"

  /** Name and lifetime (60 * 60 * 24 * 7 seconds) of the session cookie. */
  const CookieName: string := "token"
  const CookieMaxAge: int := 60 * 60 * 24 * 7

  /** What an action sees of its request: the signing secret, the clock in
      seconds, the `token` cookie, and whether it runs in production. */
  datatype Request = Request(secret: Secret, now: int, cookie: Option<Token>, production: bool)

  datatype Cookie = Cookie(name: string, value: Token, httpOnly: bool, path: string, secure: bool, maxAge: int)

  /** What an action does to the browser's cookies. */
  datatype CookieEffect = KeepCookies | SetCookie(cookie: Cookie) | DeleteToken

  /** `{ success: true }`, or the message of the thrown `Error`. */
  datatype Status = Success | Failure(message: string)

  /** The outcome of an action. `revalidated` lists the paths passed to
      `revalidatePath`; `redirect` is the target of a `redirect` call. */
  datatype Reply = Reply(status: Status, store: Store, cookies: CookieEffect, revalidated: seq<string>, redirect: Option<string>)

  /** A thrown error: nothing written, no cookie set. */
  function Rejected(st: Store, message: string): (r: Reply)
    ensures r.status == Failure(message) && r.store == st && r.cookies == KeepCookies
    ensures r.revalidated == [] && r.redirect == None
  {
    Reply(Failure(message), st, KeepCookies, [], None)
  }

  /** The `token` cookie set after registration and login. It lives exactly
      as long as the token it carries verifies. */
  function SessionCookie(req: Request, userId: int): (c: Cookie)
    ensures c.name == "token" && c.httpOnly && c.path == "/" && c.secure == req.production
    ensures c.maxAge == 604800 && c.maxAge == TokenLifetime
    ensures VerifyToken(req.secret, c.value, req.now) == Some(Claims(userId, req.now, req.now + c.maxAge))
    ensures forall later :: VerifyToken(req.secret, c.value, later).Some? <==> later < req.now + c.maxAge
  {
    Cookie(CookieName, CreateToken(req.secret, userId, req.now), true, "/", req.production, CookieMaxAge)
  }

  /** The `token` cookie the browser sends next, after an action's effect. */
  function NextCookie(cookie: Option<Token>, effect: CookieEffect): (c: Option<Token>)
    ensures effect.KeepCookies? ==> c == cookie
    ensures effect.SetCookie? ==> c == Some(effect.cookie.value)
    ensures effect.DeleteToken? ==> !HasToken(c)
  {
    match effect
    case KeepCookies => cookie
    case SetCookie(k) => Some(k.value)
    case DeleteToken => None
  }

  /** The session of the request, as `getSession` resolves it. */
  function SessionOf(req: Request, st: Store): Option<PublicUser>
  {
    GetSession(req.secret, req.now, req.cookie, st.users)
  }

  // ----- registerUser -----

  datatype RegisterForm = RegisterForm(firstName: string, lastName: string, email: string, password: string, confirmPassword: string)

  predicate RegisterFieldsPresent(form: RegisterForm)
  {
    form.firstName != "" && form.lastName != "" && form.email != "" && form.password != ""
  }

  /** `registerUser`: required fields, then matching passwords, then a free
      email, then one new user with the hashed password and a session cookie. */
  function Register(req: Request, st: Store, form: RegisterForm, salt: nat): (r: Reply)
    ensures r.status.Failure? ==> r.store == st && r.cookies == KeepCookies && r.revalidated == [] && r.redirect == None
    ensures r.status == Failure(MsgAllFieldsRequired) <==> !RegisterFieldsPresent(form)
    ensures RegisterFieldsPresent(form) && form.password != form.confirmPassword ==>
      r.status == Failure(MsgPasswordsDoNotMatch)
    ensures (&& RegisterFieldsPresent(form) && form.password == form.confirmPassword
             && exists i :: 0 <= i < |st.users| && st.users[i].email == form.email)
      ==> r.status == Failure(MsgUserExists)
    ensures r.status.Success? <==>
      && RegisterFieldsPresent(form)
      && form.password == form.confirmPassword
      && forall i :: 0 <= i < |st.users| ==> st.users[i].email != form.email
    ensures r.status.Success? ==>
      && r.store.events == st.events
      && r.store.users == st.users + [User(st.nextUserId, form.firstName, form.lastName, form.email, HashPassword(form.password, salt))]
      && r.cookies == SetCookie(SessionCookie(req, st.nextUserId))
      && r.revalidated == [] && r.redirect == None
    ensures WellFormed(st) ==> WellFormed(r.store)
    ensures EmailsUnique(st.users) ==> EmailsUnique(r.store.users)
  {
    if !RegisterFieldsPresent(form) then Rejected(st, MsgAllFieldsRequired)
    else if form.password != form.confirmPassword then Rejected(st, MsgPasswordsDoNotMatch)
    else if FindUserByEmail(st.users, form.email).Some? then Rejected(st, MsgUserExists)
    else
      var st' := CreateUser(st, form.firstName, form.lastName, form.email, HashPassword(form.password, salt));
      Reply(Success, st', SetCookie(SessionCookie(req, st.nextUserId)), [], None)
  }

  // ----- loginUser -----

  datatype LoginForm = LoginForm(email: string, password: string)

  /** `loginUser`: required fields, then one generic error for an unknown email
      and for a wrong password alike, then a session cookie. It never writes. */
  function Login(req: Request, st: Store, form: LoginForm): (r: Reply)
    ensures r.store == st
    ensures r.status.Failure? ==> r.cookies == KeepCookies
    ensures r.status == Failure(MsgLoginFieldsRequired) <==> form.email == "" || form.password == ""
    ensures r.status.Failure? ==>
      r.status.message == MsgLoginFieldsRequired || r.status.message == MsgInvalidCredentials
    ensures form.email != "" && form.password != "" && r.status.Failure? ==>
      r.status == Failure(MsgInvalidCredentials)
    ensures form.email != "" && form.password != "" ==>
      (r.status.Success? <==>
         && FindUserByEmail(st.users, form.email).Some?
         && ComparePasswords(form.password, FindUserByEmail(st.users, form.email).value.password))
    ensures (&& form.email != "" && form.password != ""
             && forall i :: 0 <= i < |st.users| ==> st.users[i].email != form.email)
      ==> r.status == Failure(MsgInvalidCredentials)
    ensures r.status.Success? ==>
      exists i ::
        && 0 <= i < |st.users|
        && st.users[i].email == form.email
        && ComparePasswords(form.password, st.users[i].password)
        && r.cookies == SetCookie(SessionCookie(req, st.users[i].id))
    ensures r.revalidated == [] && r.redirect == None
  {
    if form.email == "" || form.password == "" then Rejected(st, MsgLoginFieldsRequired)
    else
      match FindUserByEmail(st.users, form.email)
      case None => Rejected(st, MsgInvalidCredentials)
      case Some(u) =>
        if !ComparePasswords(form.password, u.password) then Rejected(st, MsgInvalidCredentials)
        else Reply(Success, st, SetCookie(SessionCookie(req, u.id)), [], None)
  }

  /** With unique emails, login succeeds exactly for a stored email with its password. */
  lemma LoginSucceedsIff(req: Request, st: Store, form: LoginForm)
    requires EmailsUnique(st.users)
    ensures Login(req, st, form).status.Success? <==>
      && form.email != "" && form.password != ""
      && exists i :: 0 <= i < |st.users| && st.users[i].email == form.email && ComparePasswords(form.password, st.users[i].password)
  {
    if form.email != "" && form.password != "" {
      if i :| 0 <= i < |st.users| && st.users[i].email == form.email && ComparePasswords(form.password, st.users[i].password) {
        FindStoredUserByEmail(st.users, i);
      }
    }
  }

  /** An unknown email and a wrong password for a known one produce the same error. */
  lemma LoginErrorsIndistinguishable(req: Request, st: Store, wrongPassword: LoginForm, unknownEmail: LoginForm, k: nat)
    requires EmailsUnique(st.users)
    requires wrongPassword.email != "" && wrongPassword.password != ""
    requires k < |st.users| && st.users[k].email == wrongPassword.email
    requires !ComparePasswords(wrongPassword.password, st.users[k].password)
    requires unknownEmail.email != "" && unknownEmail.password != ""
    requires forall i :: 0 <= i < |st.users| ==> st.users[i].email != unknownEmail.email
    ensures Login(req, st, wrongPassword).status == Failure(MsgInvalidCredentials)
    ensures Login(req, st, unknownEmail).status == Login(req, st, wrongPassword).status
  {
    FindStoredUserByEmail(st.users, k);
  }

  // ----- logoutUser -----

  /** `logoutUser`: deletes the token cookie and redirects home. */
  function Logout(st: Store): (r: Reply)
    ensures r.status == Success && r.store == st && r.redirect == Some("/")
    ensures r.cookies == DeleteToken && r.revalidated == []
    ensures forall cookie :: !HasToken(NextCookie(cookie, r.cookies))
  {
    Reply(Success, st, DeleteToken, [], Some("/"))
  }

  /** After logging out no session resolves, whatever the cookie was. */
  lemma LogoutEndsSession(req: Request, st: Store)
    ensures GetSession(req.secret, req.now, NextCookie(req.cookie, Logout(st).cookies), st.users) == None
  {
  }

  // ----- submitEvent -----

  datatype EventForm = EventForm(
    name: string, date: string, kind: string, location: string, college: string,
    link: string, description: string, contact: string, imageUrl: string)

  predicate EventFieldsPresent(form: EventForm)
  {
    && form.name != "" && form.date != "" && form.kind != ""
    && form.location != "" && form.link != "" && form.description != ""
  }

  /** `(value as string) || null`: an empty optional field is stored as null. */
  function OptionalField(value: string): (r: Option<string>)
    ensures r.None? <==> value == ""
    ensures r.Some? ==> r.value == value
  {
    if value == "" then None else Some(value)
  }

  /** `submitEvent`: a session first, then the six required fields, then one
      new event owned by the session user. `parseDate` stands for `new Date(...)`. */
  function SubmitEvent(req: Request, st: Store, form: EventForm, parseDate: string -> int): (r: Reply)
    ensures r.status.Failure? ==> r.store == st && r.cookies == KeepCookies && r.revalidated == [] && r.redirect == None
    ensures SessionOf(req, st).None? ==> r.status == Failure(MsgSubmitNeedsLogin)
    ensures SessionOf(req, st).Some? && !EventFieldsPresent(form) ==> r.status == Failure(MsgRequiredFieldsMissing)
    ensures r.status.Success? <==> SessionOf(req, st).Some? && EventFieldsPresent(form)
    ensures r.status.Success? ==>
      && r.store.users == st.users
      && |r.store.events| == |st.events| + 1
      && r.store.events[..|st.events|] == st.events
      && r.revalidated == ["/", "/explore"]
      && r.cookies == KeepCookies && r.redirect == None
      && var e := r.store.events[|st.events|];
         && e.id == st.nextEventId
         && e.userId == SessionOf(req, st).value.id
         && e.name == form.name && e.date == parseDate(form.date) && e.kind == form.kind
         && e.location == form.location && e.link == form.link && e.description == form.description
         && (e.college.None? <==> form.college == "") && (e.college.Some? ==> e.college.value == form.college)
         && (e.contact.None? <==> form.contact == "") && (e.contact.Some? ==> e.contact.value == form.contact)
         && (e.imageUrl.None? <==> form.imageUrl == "") && (e.imageUrl.Some? ==> e.imageUrl.value == form.imageUrl)
    ensures WellFormed(st) ==> WellFormed(r.store)
  {
    match SessionOf(req, st)
    case None => Rejected(st, MsgSubmitNeedsLogin)
    case Some(session) =>
      if !EventFieldsPresent(form) then Rejected(st, MsgRequiredFieldsMissing)
      else
        var e := Event(st.nextEventId, form.name, parseDate(form.date), form.kind, form.location,
                       OptionalField(form.college), form.link, form.description,
                       OptionalField(form.contact), OptionalField(form.imageUrl), session.id);
        Reply(Success, CreateEvent(st, e), KeepCookies, ["/", "/explore"], None)
  }

  // ----- getEvents, getEventById, getUserEvents -----

  /** `getEvents`: every event, ordered by date. */
  function GetEvents(st: Store): (r: seq<Event>)
    ensures SortedByDate(r)
    ensures multiset(r) == multiset(st.events)
  {
    SortByDate(st.events)
  }

  /** The organizer's names included with an event. */
  datatype Organizer = Organizer(firstName: string, lastName: string)

  datatype EventDetail = EventDetail(event: Event, organizer: Option<Organizer>)

  /** `getEventById`: the event with that id together with its owner's names. */
  function GetEventById(st: Store, id: int): (r: Option<EventDetail>)
    ensures r.None? <==> forall i :: 0 <= i < |st.events| ==> st.events[i].id != id
    ensures r.Some? ==> r.value.event in st.events && r.value.event.id == id
    ensures r.Some? && FindUserById(st.users, r.value.event.userId).Some? ==>
      var u := FindUserById(st.users, r.value.event.userId).value;
      r.value.organizer == Some(Organizer(u.firstName, u.lastName))
    ensures r.Some? && WellFormed(st) ==>
      && r.value.organizer.Some?
      && exists u :: u in st.users && u.id == r.value.event.userId
           && r.value.organizer.value == Organizer(u.firstName, u.lastName)
  {
    match First(st.events, (e: Event) => e.id == id)
    case None => None
    case Some(e) =>
      match FindUserById(st.users, e.userId)
      case None => Some(EventDetail(e, None))
      case Some(u) => Some(EventDetail(e, Some(Organizer(u.firstName, u.lastName))))
  }

  /** `getUserEvents`: nothing without a session; otherwise exactly the session
      user's events, ordered by date. */
  function GetUserEvents(req: Request, st: Store): (r: seq<Event>)
    ensures SessionOf(req, st).None? ==> r == []
    ensures SessionOf(req, st).Some? ==>
      && SortedByDate(r)
      && multiset(r) == multiset(EventsOf(st.events, SessionOf(req, st).value.id))
      && forall e :: e in r <==> e in st.events && e.userId == SessionOf(req, st).value.id
  {
    match SessionOf(req, st)
    case None => []
    case Some(session) =>
      var r := SortByDate(EventsOf(st.events, session.id));
      SortedMembers(EventsOf(st.events, session.id));
      r
  }

  // ----- updateUserProfile -----

  datatype ProfileForm = ProfileForm(firstName: string, lastName: string, email: string)

  /** `updateUserProfile`: a session, then the three fields, then the session
      user's names and email are overwritten. There is no email-uniqueness check. */
  function UpdateProfile(req: Request, st: Store, form: ProfileForm): (r: Reply)
    ensures r.status.Failure? ==> r.store == st && r.cookies == KeepCookies && r.revalidated == [] && r.redirect == None
    ensures SessionOf(req, st).None? ==> r.status == Failure(MsgProfileNeedsLogin)
    ensures SessionOf(req, st).Some? && (form.firstName == "" || form.lastName == "" || form.email == "") ==>
      r.status == Failure(MsgAllFieldsRequired)
    ensures r.status.Success? <==>
      SessionOf(req, st).Some? && form.firstName != "" && form.lastName != "" && form.email != ""
    ensures r.status.Success? ==>
      && r.store.events == st.events
      && r.store.nextUserId == st.nextUserId && r.store.nextEventId == st.nextEventId
      && r.revalidated == ["/profile"]
      && r.cookies == KeepCookies && r.redirect == None
      && |r.store.users| == |st.users|
      && forall i :: 0 <= i < |st.users| ==>
           && r.store.users[i].id == st.users[i].id
           && r.store.users[i].password == st.users[i].password
           && (st.users[i].id != SessionOf(req, st).value.id ==> r.store.users[i] == st.users[i])
           && (st.users[i].id == SessionOf(req, st).value.id ==>
                 && r.store.users[i].firstName == form.firstName
                 && r.store.users[i].lastName == form.lastName
                 && r.store.users[i].email == form.email)
    ensures WellFormed(st) ==> WellFormed(r.store)
  {
    match SessionOf(req, st)
    case None => Rejected(st, MsgProfileNeedsLogin)
    case Some(session) =>
      if form.firstName == "" || form.lastName == "" || form.email == "" then Rejected(st, MsgAllFieldsRequired)
      else Reply(Success, RenameUser(st, session.id, form), KeepCookies, ["/profile"], None)
  }

  /** The write of `updateUserProfile`: the names and email of the user with id
      `id` become the form's; every other record and field stays as it was. */
  function RenameUser(st: Store, id: int, form: ProfileForm): (st': Store)
    ensures st'.events == st.events
    ensures st'.nextUserId == st.nextUserId && st'.nextEventId == st.nextEventId
    ensures |st'.users| == |st.users|
    ensures forall i :: 0 <= i < |st.users| ==>
      && st'.users[i].id == st.users[i].id
      && st'.users[i].password == st.users[i].password
      && (st.users[i].id != id ==> st'.users[i] == st.users[i])
      && (st.users[i].id == id ==>
            && st'.users[i].firstName == form.firstName
            && st'.users[i].lastName == form.lastName
            && st'.users[i].email == form.email)
    ensures WellFormed(st) ==> WellFormed(st')
  {
    var users' := UpdateUser(st.users, id,
                             (u: User) => u.(firstName := form.firstName, lastName := form.lastName, email := form.email));
    var st' := st.(users := users');
    assert WellFormed(st) ==> WellFormed(st') by {
      if WellFormed(st) {
        SameIdsSameLookups(st.users, users');
      }
    }
    st'
  }

  /** Rewriting users without touching their ids keeps every id lookup's success. */
  lemma {:induction false} SameIdsSameLookups(users: seq<User>, users': seq<User>)
    requires |users| == |users'|
    requires forall i :: 0 <= i < |users| ==> users'[i].id == users[i].id
    ensures forall id :: FindUserById(users', id).Some? <==> FindUserById(users, id).Some?
  {
  }

  /** The missing uniqueness check: a profile update can give a user an email
      another user already has, breaking the unique-email invariant. */
  lemma UpdateProfileCanDuplicateEmail(secret: Secret, now: int)
    ensures
      var alice := User(1, "Ada", "Lovelace", "ada@example.com", HashPassword("pw1", 0));
      var bob := User(2, "Bob", "Smith", "bob@example.com", HashPassword("pw2", 0));
      var st := Store([alice, bob], [], 3, 1);
      var req := Request(secret, now, Some(CreateToken(secret, 2, now)), false);
      var r := UpdateProfile(req, st, ProfileForm("Bob", "Smith", "ada@example.com"));
      && EmailsUnique(st.users)
      && r.status.Success?
      && !EmailsUnique(r.store.users)
  {
    var alice := User(1, "Ada", "Lovelace", "ada@example.com", HashPassword("pw1", 0));
    var bob := User(2, "Bob", "Smith", "bob@example.com", HashPassword("pw2", 0));
    var st := Store([alice, bob], [], 3, 1);
    FreshTokenResolves(secret, now, now, st.users, 1);
    assert "ada@example.com" != "bob@example.com" by { assert "ada@example.com"[0] != "bob@example.com"[0]; }
  }

  // ----- updateUserPassword -----

  datatype PasswordForm = PasswordForm(currentPassword: string, newPassword: string, confirmPassword: string)

  predicate PasswordFieldsPresent(form: PasswordForm)
  {
    form.currentPassword != "" && form.newPassword != "" && form.confirmPassword != ""
  }

  /** The part of `updateUserPassword` after the session check: fields, match,
      the user lookup, the current password, then the new digest. */
  function ChangePassword(st: Store, id: int, form: PasswordForm, salt: nat): (r: Reply)
    ensures r.status.Failure? ==> r.store == st && r.cookies == KeepCookies && r.revalidated == [] && r.redirect == None
    ensures !PasswordFieldsPresent(form) ==> r.status == Failure(MsgAllFieldsRequired)
    ensures PasswordFieldsPresent(form) && form.newPassword != form.confirmPassword ==>
      r.status == Failure(MsgNewPasswordsDoNotMatch)
    ensures (&& PasswordFieldsPresent(form) && form.newPassword == form.confirmPassword
             && FindUserById(st.users, id).None?)
      ==> r.status == Failure(MsgUserNotFound)
    ensures (&& PasswordFieldsPresent(form) && form.newPassword == form.confirmPassword
             && FindUserById(st.users, id).Some?
             && !ComparePasswords(form.currentPassword, FindUserById(st.users, id).value.password))
      ==> r.status == Failure(MsgWrongCurrentPassword)
    ensures r.status.Success? <==>
      && PasswordFieldsPresent(form)
      && form.newPassword == form.confirmPassword
      && FindUserById(st.users, id).Some?
      && ComparePasswords(form.currentPassword, FindUserById(st.users, id).value.password)
    ensures r.status.Success? ==>
      && r.store.events == st.events
      && r.store.nextUserId == st.nextUserId && r.store.nextEventId == st.nextEventId
      && r.cookies == KeepCookies && r.revalidated == [] && r.redirect == None
      && |r.store.users| == |st.users|
      && forall i :: 0 <= i < |st.users| ==>
           r.store.users[i] == if st.users[i].id == id then st.users[i].(password := HashPassword(form.newPassword, salt)) else st.users[i]
  {
    if !PasswordFieldsPresent(form) then Rejected(st, MsgAllFieldsRequired)
    else if form.newPassword != form.confirmPassword then Rejected(st, MsgNewPasswordsDoNotMatch)
    else
      match FindUserById(st.users, id)
      case None => Rejected(st, MsgUserNotFound)
      case Some(u) =>
        if !ComparePasswords(form.currentPassword, u.password) then Rejected(st, MsgWrongCurrentPassword)
        else
          var digest := HashPassword(form.newPassword, salt);
          var users' := UpdateUser(st.users, id, (v: User) => v.(password := digest));
          Reply(Success, st.(users := users'), KeepCookies, [], None)
  }

  /** `updateUserPassword`: a session, then the checks of `ChangePassword` on the
      session user. Only that user's password field changes. A resolved session
      always names a stored user, so "User not found" never reaches the caller. */
  function UpdatePassword(req: Request, st: Store, form: PasswordForm, salt: nat): (r: Reply)
    ensures r.status.Failure? ==> r.store == st && r.cookies == KeepCookies && r.revalidated == [] && r.redirect == None
    ensures SessionOf(req, st).None? ==> r.status == Failure(MsgPasswordNeedsLogin)
    ensures SessionOf(req, st).Some? && !PasswordFieldsPresent(form) ==> r.status == Failure(MsgAllFieldsRequired)
    ensures (&& SessionOf(req, st).Some? && PasswordFieldsPresent(form)
             && form.newPassword != form.confirmPassword)
      ==> r.status == Failure(MsgNewPasswordsDoNotMatch)
    ensures r.status != Failure(MsgUserNotFound)
    ensures (&& SessionOf(req, st).Some? && PasswordFieldsPresent(form)
             && form.newPassword == form.confirmPassword
             && !ComparePasswords(form.currentPassword, FindUserById(st.users, SessionOf(req, st).value.id).value.password))
      ==> r.status == Failure(MsgWrongCurrentPassword)
    ensures r.status.Success? <==>
      && SessionOf(req, st).Some?
      && PasswordFieldsPresent(form)
      && form.newPassword == form.confirmPassword
      && ComparePasswords(form.currentPassword, FindUserById(st.users, SessionOf(req, st).value.id).value.password)
    ensures r.status.Success? ==>
      && r.store.events == st.events
      && r.cookies == KeepCookies && r.revalidated == [] && r.redirect == None
      && |r.store.users| == |st.users|
      && forall i :: 0 <= i < |st.users| ==>
           && r.store.users[i].id == st.users[i].id
           && r.store.users[i].firstName == st.users[i].firstName
           && r.store.users[i].lastName == st.users[i].lastName
           && r.store.users[i].email == st.users[i].email
           && (st.users[i].id != SessionOf(req, st).value.id ==> r.store.users[i] == st.users[i])
           && (st.users[i].id == SessionOf(req, st).value.id ==>
                 r.store.users[i].password == HashPassword(form.newPassword, salt))
    ensures WellFormed(st) ==> WellFormed(r.store)
    ensures EmailsUnique(st.users) ==> EmailsUnique(r.store.users)
  {
    match SessionOf(req, st)
    case None => Rejected(st, MsgPasswordNeedsLogin)
    case Some(session) =>
      var r := ChangePassword(st, session.id, form, salt);
      assert r.status.Success? && WellFormed(st) ==> WellFormed(r.store) by {
        if r.status.Success? && WellFormed(st) {
          SameIdsSameLookups(st.users, r.store.users);
        }
      }
      r
  }
}

=== FILE: auth.dfy ===
/** Password hashing and signed session tokens (lib/auth.ts, lines 1-32).

    bcrypt and jose are not modelled bit for bit. Each is replaced by an
    IDEAL primitive that has only the properties the application relies on:
    - a digest is a tagged record of (cost, salt, password); only the password
      it was made from verifies against it, and a malformed digest never does;
    - a signature is a tagged record of (secret, algorithm, claims), so it
      matches exactly when the same secret signed exactly these claims.
    Randomness (the bcrypt salt) and the clock are explicit parameters. */
module Auth {
  import opened Wrappers

  /** bcrypt work factor passed to `bcrypt.hash` (lib/auth.ts:10). */
  const SaltRounds: nat := 10

  /** The expiry "7d" of `createToken`, in seconds: 7 * 24 * 60 * 60. */
  const TokenLifetime: int := 7 * 24 * 60 * 60

  /** The protected-header algorithm of `createToken`. */
  const Algorithm: string := "HS256"

  /** The server-held signing key. The source falls back to a fixed
      development key when none is configured; here it is a parameter. */
  datatype Secret = Secret(key: string)

  /** A stored password digest: either produced by the hash, or any other
      string found in the password column. */
  datatype Digest =
    | Bcrypt(cost: nat, salt: nat, preimage: string)
    | Malformed(text: string)

  /** `hashPassword`: salted one-way hash. The random salt is a parameter. */
  function HashPassword(password: string, salt: nat): (d: Digest)
    ensures d.Bcrypt? && d.cost == SaltRounds
    ensures ComparePasswords(password, d)
    ensures forall q :: ComparePasswords(q, d) ==> q == password
  {
    Bcrypt(SaltRounds, salt, password)
  }

  /** `comparePasswords`: true exactly when `password` is the one the digest was made from. */
  predicate ComparePasswords(password: string, hashed: Digest)
  {
    hashed.Bcrypt? && hashed.preimage == password
  }

  /** Two hashes of one password differ when their salts differ, yet both verify. */
  lemma SaltedDigestsDiffer(password: string, salt1: nat, salt2: nat)
    requires salt1 != salt2
    ensures HashPassword(password, salt1) != HashPassword(password, salt2)
    ensures ComparePasswords(password, HashPassword(password, salt1))
    ensures ComparePasswords(password, HashPassword(password, salt2))
  {
  }

  /** A malformed stored digest fails closed: no password verifies against it. */
  lemma MalformedDigestRejects(password: string, text: string)
    ensures !ComparePasswords(password, Malformed(text))
  {
  }

  /** The JWT payload: the user id plus the `iat` and `exp` claims, in seconds. */
  datatype Claims = Claims(userId: int, iat: int, exp: int)

  /** An ideal HMAC tag over the protected header and the payload. */
  datatype Mac = Mac(key: Secret, alg: string, claims: Claims)

  /** The signing primitive (HMAC-SHA256 in the source). */
  function Sign(secret: Secret, alg: string, claims: Claims): Mac
  {
    Mac(secret, alg, claims)
  }

  /** A token string as carried in the cookie: a well-formed JWT, or any
      other text (which jose fails to parse). */
  datatype Token =
    | Jwt(alg: string, claims: Claims, signature: Mac)
    | Opaque(text: string)

  /** `verifyToken`: the payload when the signature matches and the token has
      not expired, else `None`. Every failure, whether a parse error, a bad
      signature or expiry, yields the same `None`, and no failure escapes. */
  function VerifyToken(secret: Secret, token: Token, now: int): (r: Option<Claims>)
    ensures r.Some? <==>
      && token.Jwt?
      && token.signature == Sign(secret, token.alg, token.claims)
      && now < token.claims.exp
    ensures r.Some? ==> r.value == token.claims
  {
    match token
    case Opaque(_) => None
    case Jwt(alg, claims, signature) =>
      if signature == Sign(secret, alg, claims) && now < claims.exp then Some(claims) else None
  }

  /** `createToken`: an HS256 token for `userId`, issued at `now`, valid for seven days. */
  function CreateToken(secret: Secret, userId: int, now: int): (t: Token)
    ensures t.Jwt? && t.alg == Algorithm
    ensures t.claims == Claims(userId, now, now + TokenLifetime)
    ensures forall later :: VerifyToken(secret, t, later).Some? <==> later < now + TokenLifetime
  {
    var claims := Claims(userId, now, now + TokenLifetime);
    Jwt(Algorithm, claims, Sign(secret, Algorithm, claims))
  }

  /** Round trip: a fresh token verifies, before expiry, to its own user id. */
  lemma TokenRoundTrip(secret: Secret, userId: int, issuedAt: int, now: int)
    requires now < issuedAt + TokenLifetime
    ensures VerifyToken(secret, CreateToken(secret, userId, issuedAt), now).Some?
    ensures VerifyToken(secret, CreateToken(secret, userId, issuedAt), now).value.userId == userId
  {
  }

  /** Expiry: at or after issued-at plus seven days, the token no longer verifies. */
  lemma TokenExpires(secret: Secret, userId: int, issuedAt: int, now: int)
    requires issuedAt + TokenLifetime <= now
    ensures VerifyToken(secret, CreateToken(secret, userId, issuedAt), now) == None
  {
  }

  /** A token signed with another secret never verifies. */
  lemma ForeignSecretRejected(secret: Secret, other: Secret, userId: int, issuedAt: int, now: int)
    requires secret != other
    ensures VerifyToken(other, CreateToken(secret, userId, issuedAt), now) == None
  {
  }

  /** Tampering with the payload while keeping the signature makes the token fail. */
  lemma TamperedClaimsRejected(secret: Secret, userId: int, issuedAt: int, forged: Claims, now: int)
    requires forged != CreateToken(secret, userId, issuedAt).claims
    ensures
      var t := CreateToken(secret, userId, issuedAt);
      VerifyToken(secret, Jwt(t.alg, forged, t.signature), now) == None
  {
  }

  /** Whether the request carries a `token` cookie the source treats as present:
      a missing cookie and an empty value are both falsy in the source. */
  predicate HasToken(cookie: Option<Token>)
  {
    cookie.Some? && cookie.value != Opaque("")
  }
}

=== FILE: middleware.dfy ===
/** The access gate (middleware.ts): a per-request decision to let the request
    through or to redirect it to the login page. The decision reads only the
    path, the `token` cookie and the token's verification; it never consults
    the user store. */
module Middleware {
  import opened Wrappers
  import opened Auth

  /** The prefixes whose pages require a session. */
  const ProtectedRoutes: seq<string> := ["/dashboard", "/profile", "/submit"]

  /** The outcome of the middleware for one request. */
  datatype Decision =
    | Pass
      /** Redirect to `/login`, with the `redirect` query parameter set to the requested path. */
    | RedirectToLogin(redirect: string)

  /** A path is protected when it starts with one of the protected prefixes
      (a plain string-prefix test, so "/submitted" counts too). */
  predicate IsProtected(pathname: string)
  {
    exists i :: 0 <= i < |ProtectedRoutes| && ProtectedRoutes[i] <= pathname
  }

  /** The protected test spelled out for the three prefixes. */
  lemma ProtectedIff(pathname: string)
    ensures IsProtected(pathname) <==>
      "/dashboard" <= pathname || "/profile" <= pathname || "/submit" <= pathname
  {
    assert ProtectedRoutes[0] == "/dashboard" && ProtectedRoutes[1] == "/profile" && ProtectedRoutes[2] == "/submit";
  }

  /** `middleware`: a protected request without a token, or with a token that
      fails verification, is sent to the login page carrying its own path;
      everything else passes. */
  function Gate(secret: Secret, now: int, pathname: string, cookie: Option<Token>): (d: Decision)
    ensures d.RedirectToLogin? <==>
      IsProtected(pathname) && (!HasToken(cookie) || VerifyToken(secret, cookie.value, now).None?)
    ensures d.RedirectToLogin? ==> d.redirect == pathname
  {
    var isProtected := IsProtected(pathname);
    if isProtected && !HasToken(cookie) then RedirectToLogin(pathname)
    else if HasToken(cookie) && VerifyToken(secret, cookie.value, now).None? && isProtected then RedirectToLogin(pathname)
    else Pass
  }

  /** No token on a protected path: redirect, carrying the path unchanged. */
  lemma NoTokenRedirects(secret: Secret, now: int, pathname: string, cookie: Option<Token>)
    requires IsProtected(pathname) && !HasToken(cookie)
    ensures Gate(secret, now, pathname, cookie) == RedirectToLogin(pathname)
  {
  }

  /** An invalid token on a protected path gets the very redirect a missing token gets. */
  lemma InvalidTokenLikeNoToken(secret: Secret, now: int, pathname: string, token: Token)
    requires IsProtected(pathname) && HasToken(Some(token))
    requires VerifyToken(secret, token, now).None?
    ensures Gate(secret, now, pathname, Some(token)) == Gate(secret, now, pathname, None)
  {
  }

  /** A valid token passes; an unprotected path passes whatever the cookie holds. */
  lemma PassCases(secret: Secret, now: int, pathname: string, cookie: Option<Token>)
    ensures HasToken(cookie) && VerifyToken(secret, cookie.value, now).Some? ==> Gate(secret, now, pathname, cookie) == Pass
    ensures !IsProtected(pathname) ==> Gate(secret, now, pathname, cookie) == Pass
  {
  }

  /** The decision depends only on the path, on whether a token is present and
      on whether it verifies: two requests that agree on these are treated alike,
      whatever their secrets, clocks and token contents. */
  lemma GateDeterministic(
    secret1: Secret, now1: int, cookie1: Option<Token>,
    secret2: Secret, now2: int, cookie2: Option<Token>,
    pathname: string)
    requires HasToken(cookie1) == HasToken(cookie2)
    requires HasToken(cookie1) ==>
      VerifyToken(secret1, cookie1.value, now1).Some? == VerifyToken(secret2, cookie2.value, now2).Some?
    ensures Gate(secret1, now1, pathname, cookie1) == Gate(secret2, now2, pathname, cookie2)
  {
  }

  /** The request examples: "/submit" without a cookie, "/dashboard" with a
      fresh token, "/profile" with an expired one. */
  lemma GateExamples(secret: Secret, userId: int, issuedAt: int)
    ensures Gate(secret, issuedAt, "/submit", None) == RedirectToLogin("/submit")
    ensures Gate(secret, issuedAt, "/dashboard", Some(CreateToken(secret, userId, issuedAt))) == Pass
    ensures Gate(secret, issuedAt + TokenLifetime, "/profile", Some(CreateToken(secret, userId, issuedAt)))
         == RedirectToLogin("/profile")
    ensures Gate(secret, issuedAt, "/submitted", None) == RedirectToLogin("/submitted")
    ensures Gate(secret, issuedAt, "/explore", None) == Pass
  {
    ProtectedIff("/submit");
    ProtectedIff("/dashboard");
    ProtectedIff("/profile");
    ProtectedIff("/submitted");
    ProtectedIff("/explore");
    assert !("/dashboard" <= "/explore") by { assert "/explore"[1] != "/dashboard"[1]; }
    assert !("/profile" <= "/explore") by { assert "/explore"[1] != "/profile"[1]; }
    assert !("/submit" <= "/explore") by { assert "/explore"[1] != "/submit"[1]; }
  }

  /** The `matcher` of the middleware config: a route itself or any path below it. */
  predicate Matched(pathname: string)
  {
    exists i :: 0 <= i < |ProtectedRoutes| &&
      (pathname == ProtectedRoutes[i] || ProtectedRoutes[i] + "/" <= pathname)
  }

  /** What the deployed application does: the middleware runs only on matched paths. */
  function Route(secret: Secret, now: int, pathname: string, cookie: Option<Token>): (d: Decision)
    ensures !Matched(pathname) ==> d == Pass
    ensures Matched(pathname) ==>
      (d.RedirectToLogin? <==> !HasToken(cookie) || VerifyToken(secret, cookie.value, now).None?)
  {
    if Matched(pathname) then Gate(secret, now, pathname, cookie) else Pass
  }

  /** Every matched path is protected, so on matched paths the prefix test is always true. */
  lemma MatchedIsProtected(pathname: string)
    requires Matched(pathname)
    ensures IsProtected(pathname)
  {
    var i :| 0 <= i < |ProtectedRoutes| &&
      (pathname == ProtectedRoutes[i] || ProtectedRoutes[i] + "/" <= pathname);
    assert ProtectedRoutes[i] <= ProtectedRoutes[i] + "/";
  }

  /** "/submitted" passes the prefix test but is outside the matcher, so the
      deployed gate never sees it and lets it through without a token. */
  lemma SubmittedBypassesMatcher(secret: Secret, now: int)
    ensures IsProtected("/submitted")
    ensures !Matched("/submitted")
    ensures Route(secret, now, "/submitted", None) == Pass
  {
    ProtectedIff("/submitted");
    assert ProtectedRoutes[0] == "/dashboard" && ProtectedRoutes[1] == "/profile" && ProtectedRoutes[2] == "/submit";
    assert !("/submit/" <= "/submitted") by { assert "/submitted"[7] == 't'; }
  }
}

=== FILE: pages.dfy ===
/** Where the login page sends a user after signing in: the `redirect` query
    parameter, or "/dashboard" when it is missing or empty. */
module LoginPage {
  import opened Wrappers
  import Auth
  import Middleware

  const DefaultTarget: string := "/dashboard"

  /** `searchParams.get("redirect") || "/dashboard"`. */
  function RedirectTarget(param: Option<string>): (target: string)
    ensures param.Some? && param.value != "" ==> target == param.value
    ensures param.None? || param.value == "" ==> target == DefaultTarget
  {
    if param.Some? && param.value != "" then param.value else DefaultTarget
  }

  /** The gate's redirect round-trips: after logging in, the user is sent back
      to the very path the gate turned away. */
  lemma GateRedirectRoundTrip(secret: Auth.Secret, now: int, pathname: string, cookie: Option<Auth.Token>)
    requires Middleware.Gate(secret, now, pathname, cookie).RedirectToLogin?
    ensures RedirectTarget(Some(Middleware.Gate(secret, now, pathname, cookie).redirect)) == pathname
  {
    var i :| 0 <= i < |Middleware.ProtectedRoutes| && Middleware.ProtectedRoutes[i] <= pathname;
    assert |Middleware.ProtectedRoutes[i]| > 0;
  }
}

/** The dashboard page's client-side guard and its event counters
    (app/dashboard/page.tsx). */
module DashboardPage {
  import opened Wrappers
  import opened Seqs
  import opened Store
  import opened Timeline
  import LoginPage

  /** Where the page navigates once the client session check has settled. */
  datatype Navigation = Stay | ToLogin(redirect: string)

  /** The effect: no user after loading means go to "/login?redirect=/dashboard". */
  function Guard(loading: bool, user: Option<PublicUser>): (nav: Navigation)
    ensures nav.ToLogin? <==> !loading && user.None?
    ensures nav.ToLogin? ==> nav.redirect == "/dashboard"
    ensures nav.ToLogin? ==> LoginPage.RedirectTarget(Some(nav.redirect)) == "/dashboard"
  {
    if !loading && user.None? then ToLogin("/dashboard") else Stay
  }

  /** The three counters the page shows. */
  datatype Counters = Counters(total: nat, upcoming: nat, past: nat)

  /** Total, Upcoming and Past counters: the upcoming and past counts add up to the total. */
  function Stats(events: seq<Event>, now: int): (c: Counters)
    ensures c.total == |events|
    ensures c.upcoming == |Upcoming(events, now)| && c.past == |Past(events, now)|
    ensures c.upcoming + c.past == c.total
  {
    UpcomingPastPartition(events, now);
    Counters(|events|, |Upcoming(events, now)|, |Past(events, now)|)
  }

  /** The two lists the page renders: exactly the upcoming and the past events,
      disjoint, jointly all of `events`, each in the order of `events`. */
  lemma PartitionOfEvents(events: seq<Event>, now: int)
    ensures forall e :: e in Upcoming(events, now) <==> e in events && e.date >= now
    ensures forall e :: e in Past(events, now) <==> e in events && e.date < now
    ensures forall e :: !(e in Upcoming(events, now) && e in Past(events, now))
    ensures multiset(Upcoming(events, now)) + multiset(Past(events, now)) == multiset(events)
    ensures IsSubsequence(Upcoming(events, now), events) && IsSubsequence(Past(events, now), events)
  {
    UpcomingPastPartition(events, now);
    UpcomingPastKeepOrder(events, now);
  }
}

/** The selection logic of the home page (app/page.tsx, lines 13-29): sort,
    keep upcoming events, choose a featured event, list up to six others. */
module HomePage {
  import opened Wrappers
  import opened Seqs
  import opened Store
  import opened Timeline

  /** How many other events the home page lists. */
  const MaxOthers: nat := 6

  /** The first upcoming event of the sorted list is the earliest upcoming event. */
  lemma FirstUpcomingIsEarliest(events: seq<Event>, now: int)
    ensures
      var upcoming := Upcoming(SortByDate(events), now);
      && (|upcoming| > 0 <==> exists e :: e in events && e.date >= now)
      && (|upcoming| > 0 ==>
            && upcoming[0] in events && upcoming[0].date >= now
            && forall e :: e in events && e.date >= now ==> upcoming[0].date <= e.date)
  {
    var sorted := SortByDate(events);
    var upcoming := Upcoming(sorted, now);
    SortedMembers(events);
    FilterKeepsSorted(sorted, (e: Event) => e.date >= now);
    if |upcoming| > 0 {
      assert upcoming[0] in upcoming;
      forall e | e in events && e.date >= now ensures upcoming[0].date <= e.date {
        assert e in upcoming;
        var j :| 0 <= j < |upcoming| && upcoming[j] == e;
        assert j == 0 || upcoming[0].date <= upcoming[j].date;
      }
    } else {
      assert forall e :: e in events && e.date >= now ==> e in upcoming;
    }
  }

  /** Because the sort is stable, the head of the sorted upcoming list is, among
      the earliest upcoming events, the one that comes first in `events`: every
      upcoming event listed before it is strictly later. */
  lemma EarliestTieGoesToFirstListed(events: seq<Event>, now: int)
    requires exists e :: e in events && e.date >= now
    ensures |Upcoming(SortByDate(events), now)| > 0
    ensures
      var x := Upcoming(SortByDate(events), now)[0];
      exists k :: 0 <= k < |events| && events[k] == x &&
        forall j :: 0 <= j < k && events[j].date >= now ==> events[j].date > x.date
  {
    var sorted := SortByDate(events);
    FirstUpcomingIsEarliest(events, now);
    var x := Upcoming(sorted, now)[0];
    FirstUpcomingLeadsItsDate(sorted, now);
    assert OnDate(sorted, x.date) == OnDate(events, x.date);
    var k := FirstOnDateIndex(events, x.date);
    forall j | 0 <= j < k && events[j].date >= now ensures events[j].date > x.date {
      assert events[j] in events;
    }
  }

  /** The featured event: the earliest upcoming one (on a tie, the one listed
      first), else the first event, else none. */
  function Featured(events: seq<Event>, now: int): (r: Option<Event>)
    ensures r.None? <==> |events| == 0
    ensures r.Some? ==> r.value in events
    ensures (exists e :: e in events && e.date >= now) ==>
      && r.Some? && r.value.date >= now
      && (forall e :: e in events && e.date >= now ==> r.value.date <= e.date)
      && exists k :: 0 <= k < |events| && events[k] == r.value &&
           forall j :: 0 <= j < k && events[j].date >= now ==> events[j].date > r.value.date
    ensures (forall e :: e in events ==> e.date < now) && |events| > 0 ==> r == Some(events[0])
  {
    var upcoming := Upcoming(SortByDate(events), now);
    FirstUpcomingIsEarliest(events, now);
    if |upcoming| > 0 then
      EarliestTieGoesToFirstListed(events, now);
      Some(upcoming[0])
    else if |events| > 0 then Some(events[0])
    else None
  }

  /** The events other than the one with id `id`, in their given order. */
  function WithoutId(events: seq<Event>, id: int): (r: seq<Event>)
    ensures forall e :: e in r <==> e in events && e.id != id
    ensures forall e: Event :: e.id != id ==> multiset(r)[e] == multiset(events)[e]
    ensures IsSubsequence(r, events)
  {
    FilterIsSubsequence(events, (e: Event) => e.id != id);
    FilterCounts(events, (e: Event) => e.id != id);
    Filter(events, (e: Event) => e.id != id)
  }

  /** `otherEvents`: the first six of the events not carrying the featured
      event's id, in their order; none at all without a featured event. */
  function Others(events: seq<Event>, featured: Option<Event>): (r: seq<Event>)
    ensures |r| <= MaxOthers
    ensures featured.None? ==> r == []
    ensures featured.Some? ==> forall e :: e in r ==> e in events && e.id != featured.value.id
    ensures featured.Some? ==>
      |r| == if |WithoutId(events, featured.value.id)| < MaxOthers then |WithoutId(events, featured.value.id)| else MaxOthers
    ensures featured.Some? && |WithoutId(events, featured.value.id)| <= MaxOthers ==>
      forall e :: e in events && e.id != featured.value.id ==> e in r
    ensures featured.Some? ==> r <= WithoutId(events, featured.value.id)
    ensures IsSubsequence(r, events)
  {
    if featured.None? then []
    else
      var rest := WithoutId(events, featured.value.id);
      var n := if |rest| < MaxOthers then |rest| else MaxOthers;
      FilterIsSubsequence(events, (e: Event) => e.id != featured.value.id);
      PrefixIsSubsequence(rest, events, n);
      assert forall e :: e in rest[..n] ==> e in rest;
      assert n == |rest| ==> rest[..n] == rest;
      rest[..n]
  }

  /** Everything the home page derives from the event list. */
  datatype Selection = Selection(sorted: seq<Event>, upcoming: seq<Event>, featured: Option<Event>, others: seq<Event>)

  /** The home page's selection, with its guarantees gathered in one place. */
  function Home(events: seq<Event>, now: int): (v: Selection)
    ensures SortedByDate(v.sorted) && multiset(v.sorted) == multiset(events)
    ensures SortedByDate(v.upcoming)
    ensures forall e :: e in v.upcoming <==> e in events && e.date >= now
    ensures v.featured.None? <==> |events| == 0
    ensures |v.upcoming| > 0 ==> v.featured == Some(v.upcoming[0])
    ensures |v.others| <= MaxOthers && IsSubsequence(v.others, events)
    ensures v.featured.None? ==> v.others == []
    ensures v.featured.Some? ==> forall e :: e in v.others ==> e.id != v.featured.value.id
    ensures |v.upcoming| == 0 && |events| > 0 ==> v.featured == Some(events[0])
    ensures v.featured.Some? ==>
      && v.others <= WithoutId(events, v.featured.value.id)
      && |v.others| == if |WithoutId(events, v.featured.value.id)| < MaxOthers then |WithoutId(events, v.featured.value.id)| else MaxOthers
  {
    var sorted := SortByDate(events);
    var upcoming := Upcoming(sorted, now);
    SortedMembers(events);
    FilterKeepsSorted(sorted, (e: Event) => e.date >= now);
    var featured := Featured(events, now);
    Selection(sorted, upcoming, featured, Others(events, featured))
  }
}

=== FILE: scenarios.dfy ===
/** Properties that relate several actions: what one action leaves behind is
    what the next one reads. */
module Scenarios {
  import opened Wrappers
  import opened Auth
  import opened Store
  import opened Session
  import opened Actions

  /** The cookie set by a successful registration resolves, until it expires,
      to the public profile of the user just created. */
  lemma RegisterThenSession(req: Request, st: Store, form: RegisterForm, salt: nat, later: int)
    requires WellFormed(st)
    requires Register(req, st, form, salt).status.Success?
    requires later < req.now + TokenLifetime
    ensures
      var r := Register(req, st, form, salt);
      GetSession(req.secret, later, NextCookie(req.cookie, r.cookies), r.store.users)
        == Some(PublicUser(st.nextUserId, form.firstName, form.lastName, form.email))
  {
    var r := Register(req, st, form, salt);
    assert r.store.users[|st.users|].id == st.nextUserId;
    FreshTokenResolves(req.secret, later, req.now, r.store.users, |st.users|);
  }

  /** After registering, logging in with the same email and password succeeds. */
  lemma RegisterThenLogin(req: Request, st: Store, form: RegisterForm, salt: nat, req2: Request)
    requires Register(req, st, form, salt).status.Success?
    ensures Login(req2, Register(req, st, form, salt).store, LoginForm(form.email, form.password)).status.Success?
  {
    var r := Register(req, st, form, salt);
    var k := |st.users|;
    assert r.store.users[k].email == form.email;
    assert ComparePasswords(form.password, r.store.users[k].password);
    FirstOfUnique(r.store.users, (u: User) => u.email == form.email, k);
  }

  /** The index of the session user in the store. */
  lemma SessionUserIndex(req: Request, st: Store) returns (k: nat)
    requires UniqueUserIds(st.users)
    requires SessionOf(req, st).Some?
    ensures k < |st.users| && st.users[k].id == SessionOf(req, st).value.id
    ensures Project(st.users[k]) == SessionOf(req, st).value
  {
    var session := SessionOf(req, st).value;
    var u :| u in st.users && u.id == session.id && Project(u) == session;
    k :| 0 <= k < |st.users| && st.users[k] == u;
  }

  /** After a password change, the new password logs the user in and a
      different old one no longer does. */
  lemma PasswordChangeThenLogin(req: Request, st: Store, form: PasswordForm, salt: nat, req2: Request)
    requires WellFormed(st) && EmailsUnique(st.users)
    requires UpdatePassword(req, st, form, salt).status.Success?
    requires SessionOf(req, st).value.email != ""
    ensures
      var store' := UpdatePassword(req, st, form, salt).store;
      var email := SessionOf(req, st).value.email;
      && Login(req2, store', LoginForm(email, form.newPassword)).status.Success?
      && (form.currentPassword != form.newPassword ==>
            Login(req2, store', LoginForm(email, form.currentPassword)).status == Failure(MsgInvalidCredentials))
  {
    var r := UpdatePassword(req, st, form, salt);
    var k := SessionUserIndex(req, st);
    var email := SessionOf(req, st).value.email;
    assert r.store.users[k].email == email;
    assert r.store.users[k].password == HashPassword(form.newPassword, salt);
    FindStoredUserByEmail(r.store.users, k);
  }

  /** Changing the password does not end existing sessions: the cookie the
      browser sends next still resolves to the same user (tokens are not revoked). */
  lemma SessionSurvivesPasswordChange(req: Request, st: Store, form: PasswordForm, salt: nat)
    requires WellFormed(st)
    requires UpdatePassword(req, st, form, salt).status.Success?
    ensures
      var r := UpdatePassword(req, st, form, salt);
      GetSession(req.secret, req.now, NextCookie(req.cookie, r.cookies), r.store.users) == SessionOf(req, st)
  {
    var r := UpdatePassword(req, st, form, salt);
    var k := SessionUserIndex(req, st);
    var claims := VerifyToken(req.secret, req.cookie.value, req.now).value;
    FindStoredUserById(r.store.users, k);
    FindStoredUserById(st.users, k);
    assert Project(r.store.users[k]) == Project(st.users[k]);
  }

  /** Register, then submit an event with the new session: the event exists,
      belongs to the new user, and both `getEvents` and that user's
      `getUserEvents` list it. */
  lemma RegisterThenSubmit(
    req: Request, st: Store, form: RegisterForm, salt: nat,
    req2: Request, eventForm: EventForm, parseDate: string -> int)
    requires WellFormed(st)
    requires Register(req, st, form, salt).status.Success?
    requires req2.secret == req.secret && req2.now < req.now + TokenLifetime
    requires req2.cookie == NextCookie(req.cookie, Register(req, st, form, salt).cookies)
    requires EventFieldsPresent(eventForm)
    ensures
      var st1 := Register(req, st, form, salt).store;
      var r2 := SubmitEvent(req2, st1, eventForm, parseDate);
      && r2.status.Success?
      && |r2.store.events| == |st.events| + 1
      && r2.store.events[|st.events|].userId == st.nextUserId
      && r2.store.events[|st.events|] in GetEvents(r2.store)
      && r2.store.events[|st.events|] in GetUserEvents(req2, r2.store)
  {
    var st1 := Register(req, st, form, salt).store;
    RegisterThenSession(req, st, form, salt, req2.now);
    assert SessionOf(req2, st1) == Some(PublicUser(st.nextUserId, form.firstName, form.lastName, form.email));
    var r2 := SubmitEvent(req2, st1, eventForm, parseDate);
    var e := r2.store.events[|st.events|];
    assert e in r2.store.events;
    assert e in multiset(GetEvents(r2.store));
    assert SessionOf(req2, r2.store) == SessionOf(req2, st1);
  }
}

=== FILE: seqs.dfy ===
/** Order-preserving filtering of sequences (JavaScript's `Array.prototype.filter`)
    and the subsequence relation it establishes. */
module Seqs {

  /** The elements of `s` that satisfy `p`, in their original order. */
  function Filter<T(!new)>(s: seq<T>, p: T -> bool): (r: seq<T>)
    ensures |r| <= |s|
    ensures forall x :: x in r <==> x in s && p(x)
    ensures forall i :: 0 <= i < |r| ==> p(r[i])
    ensures multiset(r) <= multiset(s)
  {
    if |s| == 0 then []
    else
      assert s == [s[0]] + s[1..];
      if p(s[0]) then [s[0]] + Filter(s[1..], p)
      else Filter(s[1..], p)
  }

  /** `a` can be obtained from `b` by deleting elements: it keeps their relative order. */
  ghost predicate IsSubsequence<T(!new)>(a: seq<T>, b: seq<T>)
    decreases |b|
  {
    || |a| == 0
    || (&& |b| > 0
        && ((a[0] == b[0] && IsSubsequence(a[1..], b[1..])) || IsSubsequence(a, b[1..])))
  }

  /** Filtering keeps every element it selects exactly as often as the sequence holds it. */
  lemma {:induction false} FilterCounts<T(!new)>(s: seq<T>, p: T -> bool)
    ensures forall x :: p(x) ==> multiset(Filter(s, p))[x] == multiset(s)[x]
    decreases |s|
  {
    if |s| > 0 {
      var tail := s[1..];
      FilterCounts(tail, p);
      assert s == [s[0]] + tail;
      assert multiset(s) == multiset{s[0]} + multiset(tail);
      if p(s[0]) {
        assert Filter(s, p) == [s[0]] + Filter(tail, p);
      } else {
        assert Filter(s, p) == Filter(tail, p);
      }
    }
  }

  /** Filtering keeps the relative order of the kept elements. */
  lemma {:induction false} FilterIsSubsequence<T(!new)>(s: seq<T>, p: T -> bool)
    ensures IsSubsequence(Filter(s, p), s)
    decreases |s|
  {
    if |s| > 0 {
      FilterIsSubsequence(s[1..], p);
      if p(s[0]) {
        var r := Filter(s, p);
        assert r[0] == s[0] && r[1..] == Filter(s[1..], p);
      }
    }
  }

  /** Every prefix of a subsequence of `b` is itself a subsequence of `b`. */
  lemma {:induction false} PrefixIsSubsequence<T(!new)>(a: seq<T>, b: seq<T>, n: nat)
    requires n <= |a|
    requires IsSubsequence(a, b)
    ensures IsSubsequence(a[..n], b)
    decreases |b|
  {
    if n > 0 {
      if a[0] == b[0] && IsSubsequence(a[1..], b[1..]) {
        PrefixIsSubsequence(a[1..], b[1..], n - 1);
        assert a[..n][0] == b[0] && a[..n][1..] == a[1..][..n - 1];
      } else {
        PrefixIsSubsequence(a, b[1..], n);
      }
    }
  }

  /** Two complementary filters split a sequence: every element lands in exactly one of them. */
  lemma {:induction false} FilterPartition<T(!new)>(s: seq<T>, p: T -> bool, q: T -> bool)
    requires forall x :: q(x) == !p(x)
    ensures |Filter(s, p)| + |Filter(s, q)| == |s|
    ensures multiset(Filter(s, p)) + multiset(Filter(s, q)) == multiset(s)
    decreases |s|
  {
    if |s| > 0 {
      var tail := s[1..];
      FilterPartition(tail, p, q);
      assert s == [s[0]] + tail;
      assert multiset(s) == multiset{s[0]} + multiset(tail);
      if p(s[0]) {
        assert Filter(s, p) == [s[0]] + Filter(tail, p);
        assert Filter(s, q) == Filter(tail, q);
      } else {
        assert Filter(s, p) == Filter(tail, p);
        assert Filter(s, q) == [s[0]] + Filter(tail, q);
      }
    }
  }
}

=== FILE: session.dfy ===
/** Session resolution (lib/auth.ts, lines 34-60): from the request's `token`
    cookie to the signed-in user's public profile, or to nothing. The cookie
    jar, the clock and the signing secret are explicit parameters. */
module Session {
  import opened Wrappers
  import opened Auth
  import opened Store

  /** The path `requireAuth` redirects to. */
  const LoginPath: string := "/login"

  /** `getSession`: cookie present, then token valid, then user found, then the
      password-free projection of that user. Any failed step yields `None`. */
  function GetSession(secret: Secret, now: int, cookie: Option<Token>, users: seq<User>): (r: Option<PublicUser>)
    ensures !HasToken(cookie) ==> r.None?
    ensures r.Some? <==>
      && HasToken(cookie)
      && VerifyToken(secret, cookie.value, now).Some?
      && FindUserById(users, VerifyToken(secret, cookie.value, now).value.userId).Some?
    ensures r.Some? ==>
      && r.value.id == VerifyToken(secret, cookie.value, now).value.userId
      && exists u :: u in users && u.id == r.value.id && Project(u) == r.value
  {
    if !HasToken(cookie) then None
    else
      match VerifyToken(secret, cookie.value, now)
      case None => None
      case Some(claims) =>
        match FindUserById(users, claims.userId)
        case None => None
        case Some(u) => Some(Project(u))
  }

  /** The outcome of `requireAuth`: the session user, or a redirect. */
  datatype Authorization = Authorized(user: PublicUser) | RedirectTo(path: string)

  /** `requireAuth`: the session user, or a redirect to the login page. */
  function RequireAuth(secret: Secret, now: int, cookie: Option<Token>, users: seq<User>): (r: Authorization)
    ensures r.Authorized? <==> GetSession(secret, now, cookie, users).Some?
    ensures r.Authorized? ==> Some(r.user) == GetSession(secret, now, cookie, users)
    ensures r.RedirectTo? ==> r.path == LoginPath
  {
    match GetSession(secret, now, cookie, users)
    case Some(u) => Authorized(u)
    case None => RedirectTo(LoginPath)
  }

  /** A still-valid token whose user record no longer exists resolves to no session. */
  lemma DeletedUserHasNoSession(secret: Secret, now: int, issuedAt: int, userId: int, users: seq<User>)
    requires now < issuedAt + TokenLifetime
    requires forall i :: 0 <= i < |users| ==> users[i].id != userId
    ensures GetSession(secret, now, Some(CreateToken(secret, userId, issuedAt)), users) == None
  {
  }

  /** A token issued for a stored user resolves, before expiry, to that user's public profile. */
  lemma {:induction false} FreshTokenResolves(secret: Secret, now: int, issuedAt: int, users: seq<User>, k: nat)
    requires UniqueUserIds(users) && k < |users|
    requires now < issuedAt + TokenLifetime
    ensures GetSession(secret, now, Some(CreateToken(secret, users[k].id, issuedAt)), users) == Some(Project(users[k]))
  {
    FindStoredUserById(users, k);
  }
}

=== FILE: store.dfy ===
/** The persistence collaborator: users and events as in-memory sequences,
    with the lookups and writes the application performs through its ORM.
    Record shapes follow the fields the source reads and writes. */
module Store {
  import opened Wrappers
  import opened Seqs
  import Auth

  /** A user record, password digest included. */
  datatype User = User(id: int, firstName: string, lastName: string, email: string, password: Auth.Digest)

  /** The password-free projection selected by `getSession`. */
  datatype PublicUser = PublicUser(id: int, firstName: string, lastName: string, email: string)

  /** An event record. `date` is an instant on an integer clock; `kind` is the
      event type, stored as whatever string the form sent. */
  datatype Event = Event(
    id: int,
    name: string,
    date: int,
    kind: string,
    location: string,
    college: Option<string>,
    link: string,
    description: string,
    contact: Option<string>,
    imageUrl: Option<string>,
    userId: int)

  /** The whole database: both tables and their auto-increment counters. */
  datatype Store = Store(users: seq<User>, events: seq<Event>, nextUserId: int, nextEventId: int)

  /** The first element of `s` satisfying `p`. */
  function First<T>(s: seq<T>, p: T -> bool): (r: Option<T>)
    ensures r.Some? ==> r.value in s && p(r.value)
    ensures r.None? <==> forall i :: 0 <= i < |s| ==> !p(s[i])
    ensures r.Some? ==>
      exists k :: 0 <= k < |s| && s[k] == r.value && forall j :: 0 <= j < k ==> !p(s[j])
  {
    if |s| == 0 then None
    else if p(s[0]) then Some(s[0])
    else
      var r := First(s[1..], p);
      assert r.Some? ==> exists k :: 0 <= k < |s[1..]| && s[1..][k] == r.value && forall j :: 0 <= j < k ==> !p(s[1..][j]);
      assert r.Some? ==> exists k :: 1 <= k < |s| && s[k] == r.value && forall j :: 0 <= j < k ==> !p(s[j]) by {
        if r.Some? {
          var k :| 0 <= k < |s[1..]| && s[1..][k] == r.value && forall j :: 0 <= j < k ==> !p(s[1..][j]);
          assert s[k + 1] == r.value;
          assert forall j :: 0 <= j < k + 1 ==> !p(s[j]) by {
            forall j | 0 <= j < k + 1 ensures !p(s[j]) {
              if j > 0 { assert s[j] == s[1..][j - 1]; }
            }
          }
        }
      }
      r
  }

  /** When exactly one element satisfies `p`, `First` finds that one. */
  lemma {:induction false} FirstOfUnique<T>(s: seq<T>, p: T -> bool, k: nat)
    requires k < |s| && p(s[k])
    requires forall j :: 0 <= j < |s| && p(s[j]) ==> j == k
    ensures First(s, p) == Some(s[k])
  {
    if k > 0 {
      FirstOfUnique(s[1..], p, k - 1);
    }
  }

  /** `findUnique({ where: { id } })`. */
  function FindUserById(users: seq<User>, id: int): Option<User>
  {
    First(users, (u: User) => u.id == id)
  }

  /** `findUnique({ where: { email } })`. */
  function FindUserByEmail(users: seq<User>, email: string): Option<User>
  {
    First(users, (u: User) => u.email == email)
  }

  /** The `select` of `getSession`: every field except the password. */
  function Project(u: User): (p: PublicUser)
    ensures p.id == u.id && p.firstName == u.firstName && p.lastName == u.lastName && p.email == u.email
  {
    PublicUser(u.id, u.firstName, u.lastName, u.email)
  }

  ghost predicate UniqueUserIds(users: seq<User>)
  {
    forall i, j :: 0 <= i < j < |users| ==> users[i].id != users[j].id
  }

  /** The unique index on the email column. */
  ghost predicate EmailsUnique(users: seq<User>)
  {
    forall i, j :: 0 <= i < j < |users| ==> users[i].email != users[j].email
  }

  /** Identity invariants the ORM maintains: ids are unique and below the
      auto-increment counters, and every event's owner exists. */
  ghost predicate WellFormed(st: Store)
  {
    && UniqueUserIds(st.users)
    && (forall i :: 0 <= i < |st.users| ==> st.users[i].id < st.nextUserId)
    && (forall i, j :: 0 <= i < j < |st.events| ==> st.events[i].id != st.events[j].id)
    && (forall i :: 0 <= i < |st.events| ==> st.events[i].id < st.nextEventId)
    && (forall i :: 0 <= i < |st.events| ==> FindUserById(st.users, st.events[i].userId).Some?)
  }

  /** With unique ids, looking up a stored user's id finds that user. */
  lemma FindStoredUserById(users: seq<User>, k: nat)
    requires UniqueUserIds(users)
    requires k < |users|
    ensures FindUserById(users, users[k].id) == Some(users[k])
  {
    FirstOfUnique(users, (u: User) => u.id == users[k].id, k);
  }

  /** With unique emails, looking up a stored user's email finds that user. */
  lemma FindStoredUserByEmail(users: seq<User>, k: nat)
    requires EmailsUnique(users)
    requires k < |users|
    ensures FindUserByEmail(users, users[k].email) == Some(users[k])
  {
    FirstOfUnique(users, (u: User) => u.email == users[k].email, k);
  }

  /** `user.create`: appends a user under the next auto-increment id. */
  function CreateUser(st: Store, firstName: string, lastName: string, email: string, password: Auth.Digest): (st': Store)
    ensures st'.events == st.events && st'.nextEventId == st.nextEventId
    ensures st'.users == st.users + [User(st.nextUserId, firstName, lastName, email, password)]
    ensures WellFormed(st) ==> WellFormed(st')
  {
    var st' := Store(st.users + [User(st.nextUserId, firstName, lastName, email, password)],
                     st.events, st.nextUserId + 1, st.nextEventId);
    assert WellFormed(st) ==> WellFormed(st') by {
      if WellFormed(st) {
        forall i | 0 <= i < |st'.events|
          ensures FindUserById(st'.users, st'.events[i].userId).Some?
        {
          var u := FindUserById(st.users, st.events[i].userId).value;
          assert u in st'.users;
        }
      }
    }
    st'
  }

  /** `user.update({ where: { id } })`: applies `change` to the user with that id. */
  function UpdateUser(users: seq<User>, id: int, change: User -> User): (r: seq<User>)
    ensures |r| == |users|
    ensures forall i :: 0 <= i < |users| ==> r[i] == if users[i].id == id then change(users[i]) else users[i]
  {
    seq(|users|, i requires 0 <= i < |users| => if users[i].id == id then change(users[i]) else users[i])
  }

  /** `event.create`: appends an event under the next auto-increment id. */
  function CreateEvent(st: Store, e: Event): (st': Store)
    requires e.id == st.nextEventId
    ensures st'.users == st.users && st'.nextUserId == st.nextUserId
    ensures st'.events == st.events + [e]
    ensures WellFormed(st) && FindUserById(st.users, e.userId).Some? ==> WellFormed(st')
  {
    Store(st.users, st.events + [e], st.nextUserId, st.nextEventId + 1)
  }

  /** The events owned by user `id`, in store order (the `where: { userId }` filter):
      each owned event exactly as often as it is stored, and nothing else. */
  function EventsOf(events: seq<Event>, id: int): (r: seq<Event>)
    ensures forall e :: e in r <==> e in events && e.userId == id
    ensures forall e: Event :: e.userId == id ==> multiset(r)[e] == multiset(events)[e]
    ensures IsSubsequence(r, events)
  {
    FilterIsSubsequence(events, (e: Event) => e.userId == id);
    FilterCounts(events, (e: Event) => e.userId == id);
    Filter(events, (e: Event) => e.userId == id)
  }
}

=== FILE: timeline.dfy ===
/** Ordering events by date and splitting them around the current instant:
    the `date: "asc"` ordering of the event queries, the
    `[...events].sort((a, b) => a.date - b.date)` of the home page, and the
    `date >= now` / `date < now` filters of the home and dashboard pages. */
module Timeline {
  import opened Seqs
  import opened Store

  /** Nondecreasing by date. */
  ghost predicate SortedByDate(s: seq<Event>)
  {
    forall i, j :: 0 <= i < j < |s| ==> s[i].date <= s[j].date
  }

  /** Inserts `x` into a date-sorted sequence, before the first event that is
      not earlier than it, so ahead of every event on its own date. */
  function Insert(x: Event, s: seq<Event>): (r: seq<Event>)
    requires SortedByDate(s)
    ensures SortedByDate(r)
    ensures multiset(r) == multiset(s) + multiset{x}
  {
    if |s| == 0 then [x]
    else if x.date <= s[0].date then
      InsertFront(x, s);
      [x] + s
    else
      var tail := s[1..];
      assert s == [s[0]] + tail;
      var rest := Insert(x, tail);
      InsertBehind(s[0], x, tail, rest);
      [s[0]] + rest
  }

  /** An event no later than the head of a sorted sequence may go in front. */
  lemma InsertFront(x: Event, s: seq<Event>)
    requires SortedByDate(s) && |s| > 0 && x.date <= s[0].date
    ensures SortedByDate([x] + s)
  {
    var r := [x] + s;
    forall i, j | 0 <= i < j < |r| ensures r[i].date <= r[j].date {
      if i == 0 {
        assert r[j] == s[j - 1];
        assert j - 1 == 0 || s[0].date <= s[j - 1].date;
      } else {
        assert r[i] == s[i - 1] && r[j] == s[j - 1];
      }
    }
  }

  /** An event no later than everything in a sorted sequence may go in front of it. */
  lemma InsertBehind(head: Event, x: Event, tail: seq<Event>, rest: seq<Event>)
    requires SortedByDate([head] + tail) && SortedByDate(rest)
    requires head.date < x.date
    requires multiset(rest) == multiset(tail) + multiset{x}
    ensures SortedByDate([head] + rest)
  {
    var r := [head] + rest;
    forall i, j | 0 <= i < j < |r| ensures r[i].date <= r[j].date {
      if i == 0 {
        var e := rest[j - 1];
        assert e in multiset(rest);
        if e != x {
          assert e in multiset(tail);
          var k :| 0 <= k < |tail| && tail[k] == e;
          assert ([head] + tail)[0] == head && ([head] + tail)[k + 1] == e;
        }
      } else {
        assert r[i] == rest[i - 1] && r[j] == rest[j - 1];
      }
    }
  }

  /** The events on date `d`, in their given order. */
  function OnDate(s: seq<Event>, d: int): (r: seq<Event>)
    ensures forall e :: e in r <==> e in s && e.date == d
  {
    if |s| == 0 then []
    else
      assert s == [s[0]] + s[1..];
      (if s[0].date == d then [s[0]] else []) + OnDate(s[1..], d)
  }

  /** The events on a date of a sequence with a known head. */
  lemma OnDateCons(x: Event, s: seq<Event>, d: int)
    ensures OnDate([x] + s, d) == (if x.date == d then [x] else []) + OnDate(s, d)
  {
    assert ([x] + s)[0] == x && ([x] + s)[1..] == s;
  }

  /** Inserting `x` puts it ahead of the events on its own date and leaves the
      order of every date's events unchanged. */
  lemma {:induction false} InsertOnDate(x: Event, s: seq<Event>, d: int)
    requires SortedByDate(s)
    ensures OnDate(Insert(x, s), d) == (if x.date == d then [x] else []) + OnDate(s, d)
    decreases |s|
  {
    if |s| == 0 {
      assert Insert(x, s) == [x] + s;
      OnDateCons(x, s, d);
    } else if x.date <= s[0].date {
      assert Insert(x, s) == [x] + s;
      OnDateCons(x, s, d);
    } else {
      var tail := s[1..];
      assert s == [s[0]] + tail;
      assert Insert(x, s) == [s[0]] + Insert(x, tail);
      InsertOnDate(x, tail, d);
      OnDateBehind(s[0], x, tail, Insert(x, tail), d);
    }
  }

  /** An event earlier than `x` in front of both sides keeps the equation of `InsertOnDate`. */
  lemma OnDateBehind(head: Event, x: Event, tail: seq<Event>, rest: seq<Event>, d: int)
    requires head.date < x.date
    requires OnDate(rest, d) == (if x.date == d then [x] else []) + OnDate(tail, d)
    ensures OnDate([head] + rest, d) == (if x.date == d then [x] else []) + OnDate([head] + tail, d)
  {
    OnDateCons(head, rest, d);
    OnDateCons(head, tail, d);
  }

  /** Insertion sort by date: a date-ordered permutation of `s` that keeps the
      given order of events on the same date (a stable sort). */
  function SortByDate(s: seq<Event>): (r: seq<Event>)
    ensures SortedByDate(r)
    ensures multiset(r) == multiset(s)
    ensures |r| == |s|
    ensures forall d :: OnDate(r, d) == OnDate(s, d)
  {
    if |s| == 0 then []
    else
      assert s == [s[0]] + s[1..];
      var rest := SortByDate(s[1..]);
      forall d ensures OnDate(Insert(s[0], rest), d) == OnDate(s, d) {
        InsertOnDate(s[0], rest, d);
        OnDateCons(s[0], s[1..], d);
      }
      Insert(s[0], rest)
  }

  /** Sorting keeps exactly the same events. */
  lemma SortedMembers(s: seq<Event>)
    ensures forall e :: e in SortByDate(s) <==> e in s
  {
    var r := SortByDate(s);
    forall e ensures e in r <==> e in s {
      assert e in r <==> e in multiset(r);
      assert e in s <==> e in multiset(s);
    }
  }

  /** Filtering a date-sorted sequence leaves it date-sorted. */
  lemma {:induction false} FilterKeepsSorted(s: seq<Event>, p: Event -> bool)
    requires SortedByDate(s)
    ensures SortedByDate(Filter(s, p))
    decreases |s|
  {
    if |s| > 0 {
      FilterKeepsSorted(s[1..], p);
      var tail := Filter(s[1..], p);
      assert forall e :: e in tail ==> e in s[1..];
      assert forall e :: e in s[1..] ==> s[0].date <= e.date;
    }
  }

  /** Events at or after `now`, in their given order. */
  function Upcoming(s: seq<Event>, now: int): (r: seq<Event>)
    ensures forall e :: e in r <==> e in s && e.date >= now
  {
    Filter(s, (e: Event) => e.date >= now)
  }

  /** Events strictly before `now`, in their given order. */
  function Past(s: seq<Event>, now: int): (r: seq<Event>)
    ensures forall e :: e in r <==> e in s && e.date < now
  {
    Filter(s, (e: Event) => e.date < now)
  }

  /** The first upcoming event is also the first event on its own date: the
      events before it are all in the past, so none shares its date. */
  lemma {:induction false} FirstUpcomingLeadsItsDate(s: seq<Event>, now: int)
    requires |Upcoming(s, now)| > 0
    ensures |OnDate(s, Upcoming(s, now)[0].date)| > 0
    ensures OnDate(s, Upcoming(s, now)[0].date)[0] == Upcoming(s, now)[0]
    decreases |s|
  {
    assert s == [s[0]] + s[1..];
    var d := Upcoming(s, now)[0].date;
    if s[0].date >= now {
      assert Upcoming(s, now) == [s[0]] + Upcoming(s[1..], now);
      OnDateCons(s[0], s[1..], d);
    } else {
      assert Upcoming(s, now) == Upcoming(s[1..], now);
      FirstUpcomingLeadsItsDate(s[1..], now);
      OnDateCons(s[0], s[1..], d);
    }
  }

  /** The first event on date `d` sits at some index `k`, and no event before `k` has date `d`. */
  lemma {:induction false} FirstOnDateIndex(s: seq<Event>, d: int) returns (k: nat)
    requires |OnDate(s, d)| > 0
    ensures k < |s| && s[k] == OnDate(s, d)[0]
    ensures forall j :: 0 <= j < k ==> s[j].date != d
    decreases |s|
  {
    assert s == [s[0]] + s[1..];
    OnDateCons(s[0], s[1..], d);
    if s[0].date == d {
      k := 0;
    } else {
      var k' := FirstOnDateIndex(s[1..], d);
      k := k' + 1;
    }
  }

  /** Upcoming and past split every sequence of events: no event is in both,
      their sizes add up, and together they hold every event exactly as often. */
  lemma UpcomingPastPartition(s: seq<Event>, now: int)
    ensures forall e :: !(e in Upcoming(s, now) && e in Past(s, now))
    ensures |Upcoming(s, now)| + |Past(s, now)| == |s|
    ensures multiset(Upcoming(s, now)) + multiset(Past(s, now)) == multiset(s)
  {
    FilterPartition(s, (e: Event) => e.date >= now, (e: Event) => e.date < now);
  }

  /** Both filters keep the relative order of `s`. */
  lemma UpcomingPastKeepOrder(s: seq<Event>, now: int)
    ensures IsSubsequence(Upcoming(s, now), s)
    ensures IsSubsequence(Past(s, now), s)
  {
    FilterIsSubsequence(s, (e: Event) => e.date >= now);
    FilterIsSubsequence(s, (e: Event) => e.date < now);
  }
}

=== FILE: wrappers.dfy ===
/** The optional value used throughout the model: `Option` stands for the
    TypeScript `T | null` results of the source. */
module Wrappers {

  /** A value that may be absent (`null` in the source). */
  datatype Option<+T> = None | Some(value: T)
}
